=== FILE: README.md ===
# Workout tracker core, modelled in Dafny

A model of the data core of a single-page workout tracker (a map-based
"Mapty" app written in JavaScript, `script.js`). A user clicks a point on a
map, fills in a form, and the app records a *workout*: a **Running** record
(distance, duration, cadence, derived pace) or a **Cycling** record
(distance, duration, elevation gain, derived speed), both carrying the
clicked coordinates, a creation date, an id cut from the clock and a
human-readable description. The `App` controller keeps the records in an
append-only list, remembers the last map click, validates each form
submission, looks records up by id when a sidebar entry is clicked, and
restores the list from browser storage at start-up.

Modules, leaf first:

- `Wrappers` (`wrappers.dfy`): `Option`.
- `Seqs` (`seqs.dfy`): the prefix relation on sequences.
- `Decimal` (`decimal.dfy`): how a non-negative integer is written in
  decimal and the value a digit string denotes; used for the day of month
  in a description and for the id.
- `Workouts` (`workouts.dfy`): the `Workout` datatype (`Running | Cycling`),
  `Pace`, `Speed`, `Description`, `IdOf`, the two constructors, and a
  parser that reads a description back (the partner that shows a
  description determines its type, month and day).
- `Controller` (`controller.dfy`): the `App` state (`workouts`, `mapEvent`),
  the validators `validInputs` / `allPositive`, `_showForm`, `_newWorkout`,
  the id lookup of `_moveToPopup` and the replace-or-keep logic of
  `_getLocalStorage`.
- `Session` (`session.dfy`): one browser tab over time (the app plus the
  persisted slot) under map clicks, submissions, reloads and `reset()`,
  with the invariant that the slot mirrors the live list.

Numbers are mathematical `real`s. A form field, which the code parses with
unary `+`, is an `Option<real>`: `None` stands for a parse that is not
finite (NaN or an infinity), so the validators' decisions are exact
without floating-point semantics. The clock is a parameter (`Clock`: the
millisecond timestamp and the calendar month and day).

Behaviour of the code worth knowing; the model follows the code:

- The running branch checks `allPositive(distance, duration, cadence)`, so
  cadence must be strictly positive as well as finite (script.js:188).
- The description is `"Running on"`, a newline, eight spaces of
  indentation, then `"April 14"`: the template literal spans two source
  lines (script.js:24-25), so the line break is part of the string.
- `#mapEvent` is never cleared: after a submission the pending click stays,
  and a further submission reuses it (script.js:134, 171).
- The click's `latlng` is read before any validation, so a submission with
  no click yet throws rather than alerting (`Status.NoPendingClick`);
  either way nothing changes (script.js:171).
- Cycling never checks the sign of the elevation gain; an empty elevation
  field parses to 0 and is accepted (script.js:207).

## Model

| member | source | states |
|---|---|---|
| Decimal.NatToString | script.js:13 | a number converted to a string is a non-empty run of digits with no leading zero |
| Decimal.ValueOfNatToString | script.js:25 | the day written into a description reads back as the same number |
| Decimal.NatToStringInjective | script.js:25 | two different days are never written the same way |
| Workouts.Title | script.js:24 | upper-casing the first letter of the type gives "Running" or "Cycling" |
| Workouts.Pace | script.js:39-43 | pace times distance is the duration; pace is positive when distance and duration are |
| Workouts.Speed | script.js:56-60 | speed times duration is sixty times the distance; speed is positive when distance and duration are |
| Workouts.SpeedIsKilometresPerHour | script.js:58 | dividing distance by duration/60 is the km-per-minute rate times 60, i.e. km/h |
| Workouts.IdOf | script.js:13 | the id is at most ten characters, all decimal digits |
| Workouts.IdHasTenDigits | script.js:13 | for any timestamp of ten or more digits the id is exactly ten characters |
| Workouts.IdIsTimestampModulo | script.js:13 | the id denotes the timestamp modulo 10^10 |
| Workouts.SameIdModulo | script.js:13 | two timestamps of ten or more digits that agree modulo 10^10 give the very same id string, so ids are not unique |
| Workouts.NewRunning | script.js:29-43 | a new Running record carries the given coordinates, distance, duration and cadence, the clock's date and id, and consistent pace and description |
| Workouts.NewCycling | script.js:46-60 | a new Cycling record carries the given coordinates, distance, duration and elevation gain, the clock's date and id, and consistent speed and description |
| Workouts.Description | script.js:21-26 | the description opens with the capitalised type, " on" and a newline, and is exactly 20 characters longer than the month name and the decimal day together |
| Workouts.DescriptionLayout | script.js:24-25 | after the first 19 characters (type, " on", newline, eight spaces) come the month's name, one space, and the day of month in decimal to the end |
| Workouts.MonthTableCovers | script.js:22-25 | every month index 0..11 lands inside the twelve-name table |
| Workouts.DescriptionExample | script.js:24-25 | a run on 14 April is described as "Running on", newline, eight spaces, "April 14" |
| Workouts.MonthNamesDistinct | script.js:22 | no month name occurs twice in the table |
| Workouts.MonthFromFindsName | script.js:22 | looking a month's name up in the table finds that month |
| Workouts.ParseDescriptionInverts | script.js:21-26 | reading a description back yields the type, month and day it was made from |
| Workouts.DescriptionInjective | script.js:21-26 | equal descriptions come from equal type, month and day |
| Controller.ValidInputs | script.js:158-159 | the check holds exactly when every input is finite |
| Controller.AllPositive | script.js:163 | the check holds exactly when every input is greater than zero |
| Controller.RunningAcceptedIff | script.js:182-193 | a running form passes iff distance, duration and cadence are all finite and all strictly positive |
| Controller.CyclingAcceptedIff | script.js:204-211 | a cycling form passes iff all three inputs are finite and distance and duration are strictly positive |
| Controller.CyclingAcceptsAnyFiniteElevation | script.js:207 | a zero or negative finite elevation gain never blocks a cycling form |
| Controller.Accepts | script.js:176-211 | the selected branch lets a form through iff distance and duration are finite and positive and the branch's third field is finite, and also positive for running |
| Controller.Build | script.js:195-213 | the record built for an accepted form has the selected type, sits at the click, carries the form's distance, duration and third field and the clock's date and id, and has consistent derived fields |
| Controller.ShowForm | script.js:133-137 | a map click becomes the pending click and leaves the workout list alone |
| Controller.NewWorkout | script.js:155-217 | the no-click failure is reported exactly when there is no pending click, and then nothing happens; a record is pushed iff there is one and the selected branch accepts, so a refused form after a click ends in the alert; in every non-accepted case the state is unchanged; an accepted submission grows the list by exactly one at the end, keeps every earlier record in place, and keeps the pending click |
| Controller.NewRecordContents | script.js:171-217 | with a pending click and a form the selected branch accepts, the submission is accepted and the pushed record sits at the pending click, has the selected type, the form's numbers (cadence for running, elevation for cycling), the clock's date and id, consistent derived fields, and strictly positive distance, duration and rate |
| Controller.RunningExample | script.js:176-195 | a 5 km, 24 min run at cadence 178 is accepted with pace 4.8 at the clicked point |
| Controller.NegativeDistanceRejected | script.js:182-211 | a distance of -5 is refused for either type and changes nothing |
| Controller.FindIndex | script.js:304 | the lookup yields the first position whose id matches, and is absent exactly when no record has that id |
| Controller.FindById | script.js:304 | `find` returns a stored record with the clicked id iff one exists, and it is the first record with that id |
| Controller.MoveToPopup | script.js:298-311 | a click outside every entry does nothing; otherwise the map pans to the coordinates of the first record with the entry's id, and the lookup misses (and the code throws) exactly when no record has it |
| Controller.FindIndexAfterAppend | script.js:304 | pushing a record never changes where an id already present resolves; an absent id resolves to the new record iff it is that record's id |
| Controller.GetLocalStorage | script.js:317-323 | with nothing stored the list is kept; with stored data the list becomes that data, in stored order; the pending click is untouched |
| Controller.RestoreIdempotent | script.js:319-323 | restoring twice from the same slot is the same as restoring once |
| Session.Boot | script.js:77-91 | a new app has no pending click and holds the stored list, or an empty one when nothing is stored |
| Session.Step | script.js:133-334 | a map click sets the pending click and touches nothing else; a refused submission leaves the tab as it was; an accepted one applies `_newWorkout` and writes the new list to the slot; a reload keeps the slot, clears the pending click and restores the list from the slot, or empties it when nothing is stored; a reset empties list, click and slot |
| Session.BootMirrored | script.js:317-323 | right after start-up the slot mirrors the live list |
| Session.StepPreservesMirrored | script.js:217-230 | every click, submission, reload or reset keeps the slot mirroring the live list |
| Session.RunPreservesMirrored | script.js:313-315 | the slot mirrors the live list after any sequence of events |
| Session.ReloadRestoresWorkouts | script.js:313-323 | after any history since start-up, reloading brings back exactly the live list in its order |
| Session.RunIsAppendOnly | script.js:217 | without a reset, the list before any sequence of events is a prefix of the list after it |
| Session.ResetClearsEverything | script.js:331-334 | a reset leaves no records, no pending click and nothing stored |

## Left out

- The Leaflet map: construction, tiles, markers, popups and `setView`
  panning (script.js:106-131, 235-249, 306-311) are calls into a foreign
  library; `MoveToPopup` returns the coordinates it would pan to.
- Geolocation (script.js:93-104) and `location.reload`: browser I/O. A reload
  is modelled only as re-running start-up on the stored slot.
- DOM work: `_renderWorkout`, `_hideForm` (including its `setTimeout`),
  `_toggleElevationField`, the sidebar rendering loop on restore, and the
  `toFixed` rounding of displayed rates: UI rendering and floating-point
  formatting.
- `localStorage` and `JSON.stringify` / `JSON.parse`: the slot is an
  abstract `Option<seq<Workout>>` holding the list itself. The JSON round
  trip (which turns the `Date` into a string and drops class prototypes)
  and a parse failure on corrupt data (which throws, unhandled) are not
  modelled.
- Session: assumes this tab is the only writer of the `workouts` slot.
  `localStorage` is shared by every tab of the same origin, and
  `_setLocalStorage` (script.js:313-314) overwrites the slot with this
  tab's whole list. With two tabs open, if tab A saves [w1] and then tab B,
  loaded earlier, saves [w2], then w1 is lost at the next reload.
  `RunPreservesMirrored` and `ReloadRestoresWorkouts` hold only for a
  single writer.
- Workout records: the `date` field keeps only the month and the day of
  month, the two calendar fields the description reads. The source stores
  the full `Date` with year and time (script.js:12) and persists it, but
  nothing in the modelled core reads more.
- Clocks: `Date.now()` and `new Date()` are one `Clock` parameter; the code
  reads the clock twice, which the parameter leaves free anyway.
- IEEE-754: parsing with unary `+` and division are abstracted to
  `Option<real>` and real division.
- Workouts.Pace: requires a non-zero distance, where JavaScript would
  produce an infinity or NaN; the only caller has already required a
  positive distance.
- Workouts.Speed: requires a non-zero duration for the same reason.
- A type selector value other than "running" or "cycling": the select
  offers only these two, so the type is a two-constructor datatype.
- `Workouts.UpperCase` upper-cases ASCII letters only; it is applied only
  to the first letter of "running" or "cycling".
- Id uniqueness: nothing in the code enforces it and it is not claimed;
  `IdIsTimestampModulo` shows what the id does determine.
- The binding of the event handlers to the `App` instance: event wiring of
  the browser.
- Controller.MoveToPopup: does not model the map being absent. If
  geolocation was refused or has not answered yet, `this.#map` is
  undefined and a click on a restored sidebar entry throws at
  `this.#map.setView` (script.js:306); the model still returns `PanTo`.

=== FILE: controller.dfy ===
/** The in-memory bookkeeping of the `App` class (script.js lines 71-335):
    the workout list, the pending map click, form validation and the append
    on submission, lookup of a sidebar entry by id, and restoring the list
    from the persisted slot. */
module Controller {
  import opened Wrappers
  import opened Workouts

  /** The numbers read from the form. A field is `+input.value`; None stands
      for a parse that is not finite (NaN or an infinity). */
  datatype FormInput = FormInput(
    selected: WorkoutType,
    distance: Option<real>,
    duration: Option<real>,
    cadence: Option<real>,
    elevation: Option<real>)

  /** The private state of one `App`: `#workouts` and `#mapEvent` (the last
      map click, absent until the first one). */
  datatype App = App(workouts: seq<Workout>, mapEvent: Option<LatLng>)

  /** The state right after the field initialisers of `new App()`. */
  const Fresh: App := App([], None)

  // ---------------------------------------------------------------------
  // Validation

  /** `validInputs(...inputs)`: every input is a finite number. */
  function ValidInputs(inputs: seq<Option<real>>): (r: bool)
    ensures r <==> forall i :: 0 <= i < |inputs| ==> inputs[i].Some?
  {
    |inputs| == 0 || (inputs[0].Some? && ValidInputs(inputs[1..]))
  }

  /** `allPositive(...inputs)`: every input is greater than zero. */
  function AllPositive(inputs: seq<real>): (r: bool)
    ensures r <==> forall i :: 0 <= i < |inputs| ==> inputs[i] > 0.0
  {
    |inputs| == 0 || (inputs[0] > 0.0 && AllPositive(inputs[1..]))
  }

  /** The numbers of inputs that are all finite. */
  function Values(inputs: seq<Option<real>>): (r: seq<real>)
    requires ValidInputs(inputs)
    ensures |r| == |inputs|
    ensures forall i :: 0 <= i < |r| ==> inputs[i] == Some(r[i])
  {
    seq(|inputs|, i requires 0 <= i < |inputs| => inputs[i].value)
  }

  /** The guard of the running branch: all three inputs finite and positive. */
  predicate RunningInputsOk(distance: Option<real>, duration: Option<real>, cadence: Option<real>) {
    ValidInputs([distance, duration, cadence]) && AllPositive(Values([distance, duration, cadence]))
  }

  /** The guard of the cycling branch: all three inputs finite, but only
      distance and duration must be positive. */
  predicate CyclingInputsOk(distance: Option<real>, duration: Option<real>, elevation: Option<real>) {
    var inputs := [distance, duration, elevation];
    ValidInputs(inputs) && AllPositive(Values(inputs)[..2])
  }

  /** Whether the branch chosen by the type selector lets the form through:
      distance and duration finite and positive for both types, and the
      branch's own third field finite, and positive for running. */
  predicate Accepts(form: FormInput): (r: bool)
    ensures r <==>
      && form.distance.Some? && form.duration.Some?
      && form.distance.value > 0.0 && form.duration.value > 0.0
      && match form.selected
         case RunningType => form.cadence.Some? && form.cadence.value > 0.0
         case CyclingType => form.elevation.Some?
  {
    match form.selected
    case RunningType =>
      RunningAcceptedIff(form.distance, form.duration, form.cadence);
      RunningInputsOk(form.distance, form.duration, form.cadence)
    case CyclingType =>
      CyclingAcceptedIff(form.distance, form.duration, form.elevation);
      CyclingInputsOk(form.distance, form.duration, form.elevation)
  }

  lemma RunningAcceptedIff(distance: Option<real>, duration: Option<real>, cadence: Option<real>)
    ensures RunningInputsOk(distance, duration, cadence) <==>
      && distance.Some? && duration.Some? && cadence.Some?
      && distance.value > 0.0 && duration.value > 0.0 && cadence.value > 0.0
  {
    var inputs := [distance, duration, cadence];
    assert inputs[0] == distance && inputs[1] == duration && inputs[2] == cadence;
    if ValidInputs(inputs) {
      var vs := Values(inputs);
      assert vs[0] == distance.value && vs[1] == duration.value && vs[2] == cadence.value;
    }
  }

  lemma CyclingAcceptedIff(distance: Option<real>, duration: Option<real>, elevation: Option<real>)
    ensures CyclingInputsOk(distance, duration, elevation) <==>
      && distance.Some? && duration.Some? && elevation.Some?
      && distance.value > 0.0 && duration.value > 0.0
  {
    var inputs := [distance, duration, elevation];
    assert inputs[0] == distance && inputs[1] == duration && inputs[2] == elevation;
    if ValidInputs(inputs) {
      var vs := Values(inputs)[..2];
      assert vs[0] == distance.value && vs[1] == duration.value;
    }
  }

  /** Elevation gain is never checked for sign: a finite zero or negative
      climb is accepted. */
  lemma CyclingAcceptsAnyFiniteElevation(distance: real, duration: real, elevation: real)
    requires distance > 0.0 && duration > 0.0
    ensures CyclingInputsOk(Some(distance), Some(duration), Some(elevation))
  {
  }

  // ---------------------------------------------------------------------
  // Map click and submission

  /** `_showForm`: remember the click; the workout list is not touched. */
  function ShowForm(app: App, click: LatLng): (r: App)
    ensures r.mapEvent == Some(click)
    ensures r.workouts == app.workouts
  {
    app.(mapEvent := Some(click))
  }

  /** How `_newWorkout` ends: a record was pushed; the guard failed and an
      alert was shown; or no map click had happened, so reading
      `this.#mapEvent.latlng` threw before anything else. */
  datatype Status = Accepted | Alerted | NoPendingClick

  datatype Submission = Submission(app: App, status: Status)

  /** The record a valid submission creates at the pending click. */
  function Build(click: LatLng, form: FormInput, clock: Clock): (w: Workout)
    requires Accepts(form)
    ensures w.Type() == form.selected && WellFormed(w)
    ensures w.coords == click && w.date == clock.date && w.id == IdOf(clock.millis)
    ensures Some(w.distance) == form.distance && Some(w.duration) == form.duration
    ensures w.Running? ==> Some(w.cadence) == form.cadence
    ensures w.Cycling? ==> Some(w.elevationGain) == form.elevation
  {
    match form.selected
    case RunningType =>
      NewRunning(click, form.distance.value, form.duration.value, form.cadence.value, clock)
    case CyclingType =>
      NewCycling(click, form.distance.value, form.duration.value, form.elevation.value, clock)
  }

  /** `_newWorkout`: read the click, validate the branch's inputs, and push
      one new record or leave everything as it was. */
  function NewWorkout(app: App, form: FormInput, clock: Clock): (r: Submission)
    ensures r.status == NoPendingClick <==> app.mapEvent.None?
    ensures r.status == Accepted <==> app.mapEvent.Some? && Accepts(form)
    ensures r.status != Accepted ==> r.app == app
    ensures r.app.mapEvent == app.mapEvent
    ensures r.status == Accepted ==>
      && |r.app.workouts| == |app.workouts| + 1
      && r.app.workouts[..|app.workouts|] == app.workouts
  {
    match app.mapEvent
    case None => Submission(app, NoPendingClick)
    case Some(click) =>
      if !Accepts(form) then Submission(app, Alerted)
      else Submission(app.(workouts := app.workouts + [Build(click, form, clock)]), Accepted)
  }

  /** The record an accepted submission appends: at the pending click, of the
      selected type, carrying the form's numbers, with its derived fields
      computed from them and strictly positive. */
  lemma NewRecordContents(app: App, form: FormInput, clock: Clock)
    requires app.mapEvent.Some? && Accepts(form)
    ensures NewWorkout(app, form, clock).status == Accepted
    ensures var ws := NewWorkout(app, form, clock).app.workouts;
      var w := ws[|ws| - 1];
      && WellFormed(w)
      && w.coords == app.mapEvent.value
      && w.Type() == form.selected
      && Some(w.distance) == form.distance && Some(w.duration) == form.duration
      && w.distance > 0.0 && w.duration > 0.0
      && w.date == clock.date && w.id == IdOf(clock.millis)
      && (w.Running? ==> Some(w.cadence) == form.cadence && w.cadence > 0.0 && w.pace > 0.0)
      && (w.Cycling? ==> Some(w.elevationGain) == form.elevation && w.speed > 0.0)
  {
    var ws := NewWorkout(app, form, clock).app.workouts;
    var w := ws[|ws| - 1];
    assert w == Build(app.mapEvent.value, form, clock);
    match form.selected
    case RunningType =>
      RunningAcceptedIff(form.distance, form.duration, form.cadence);
      assert w.pace == Pace(w.distance, w.duration);
    case CyclingType =>
      CyclingAcceptedIff(form.distance, form.duration, form.elevation);
      assert w.speed == Speed(w.distance, w.duration);
  }

  /** A run of 5 km in 24 min at cadence 178 is stored with pace 4.8 min/km
      at the clicked point. */
  lemma RunningExample(app: App, clock: Clock)
    requires app.mapEvent == Some(LatLng(39.0, -12.0))
    ensures var r := NewWorkout(app, FormInput(RunningType, Some(5.0), Some(24.0), Some(178.0), None), clock);
      && r.status == Accepted
      && r.app.workouts[|app.workouts|].pace == 4.8
      && r.app.workouts[|app.workouts|].coords == LatLng(39.0, -12.0)
  {
  }

  /** A negative distance is refused for either type and changes nothing. */
  lemma NegativeDistanceRejected(app: App, selected: WorkoutType, third: real, clock: Clock)
    ensures var r := NewWorkout(app, FormInput(selected, Some(-5.0), Some(24.0), Some(third), Some(third)), clock);
      r.status != Accepted && r.app == app
  {
  }

  // ---------------------------------------------------------------------
  // Lookup by id

  /** The index of the first record whose id is `id`, as `Array.prototype.find`
      scans from the front. */
  function FindIndex(workouts: seq<Workout>, id: string): (r: Option<nat>)
    ensures r.Some? ==> r.value < |workouts| && workouts[r.value].id == id
    ensures r.Some? ==> forall j :: 0 <= j < r.value ==> workouts[j].id != id
    ensures r.None? <==> forall j :: 0 <= j < |workouts| ==> workouts[j].id != id
  {
    if |workouts| == 0 then None
    else if workouts[0].id == id then Some(0)
    else match FindIndex(workouts[1..], id)
      case None => None
      case Some(i) => Some(i + 1)
  }

  /** `this.#workouts.find(w => w.id === id)`: the record itself, or undefined. */
  function FindById(workouts: seq<Workout>, id: string): (r: Option<Workout>)
    ensures r.Some? <==> exists j :: 0 <= j < |workouts| && workouts[j].id == id
    ensures r.Some? ==> r.value.id == id && r.value in workouts
    ensures r.Some? ==> exists k :: 0 <= k < |workouts| && workouts[k] == r.value
                                    && forall j :: 0 <= j < k ==> workouts[j].id != id
  {
    match FindIndex(workouts, id)
    case None => None
    case Some(i) => Some(workouts[i])
  }

  /** What `_moveToPopup` does with a click in the sidebar. */
  datatype PanResult =
    | NotOnEntry          // the click was outside every entry: return
    | PanTo(to: LatLng)   // `setView` on the found record's coordinates
    | LookupMiss          // no record has the entry's id: `workout.coords` throws

  /** `_moveToPopup`: `clicked` is the `data-id` of the entry the click fell
      in, if any. */
  function MoveToPopup(app: App, clicked: Option<string>): (r: PanResult)
    ensures clicked.None? <==> r == NotOnEntry
    ensures r.PanTo? ==> exists j :: 0 <= j < |app.workouts| && app.workouts[j].id == clicked.value
                                     && app.workouts[j].coords == r.to
    ensures r.PanTo? ==> FindIndex(app.workouts, clicked.value).Some?
                         && r.to == app.workouts[FindIndex(app.workouts, clicked.value).value].coords
    ensures r == LookupMiss <==>
      clicked.Some? && forall j :: 0 <= j < |app.workouts| ==> app.workouts[j].id != clicked.value
  {
    match clicked
    case None => NotOnEntry
    case Some(id) =>
      match FindById(app.workouts, id)
      case None => LookupMiss
      case Some(w) => PanTo(w.coords)
  }

  /** Appending a record never changes which record an id that was already
      present resolves to, so entries already on screen keep their target;
      an id that was absent resolves to the new record exactly when it is
      that record's id. */
  lemma {:induction false} FindIndexAfterAppend(workouts: seq<Workout>, w: Workout, id: string)
    ensures FindIndex(workouts, id).Some? ==> FindIndex(workouts + [w], id) == FindIndex(workouts, id)
    ensures FindIndex(workouts, id).None? ==>
      FindIndex(workouts + [w], id) == (if w.id == id then Some(|workouts|) else None)
  {
    if |workouts| > 0 {
      assert (workouts + [w])[1..] == workouts[1..] + [w];
      FindIndexAfterAppend(workouts[1..], w, id);
    }
  }

  // ---------------------------------------------------------------------
  // Restore

  /** `_getLocalStorage`: `data` is what the persisted slot parses to. With
      nothing stored the state is kept; otherwise the list is replaced by
      the stored one wholesale, in its stored order. */
  function GetLocalStorage(app: App, data: Option<seq<Workout>>): (r: App)
    ensures r.mapEvent == app.mapEvent
    ensures r.workouts == data.GetOr(app.workouts)
  {
    match data
    case None => app
    case Some(stored) => app.(workouts := stored)
  }

  /** Restoring twice from the same slot is the same as restoring once. */
  lemma RestoreIdempotent(app: App, data: Option<seq<Workout>>)
    ensures GetLocalStorage(GetLocalStorage(app, data), data) == GetLocalStorage(app, data)
  {
  }
}

=== FILE: decimal.dfy ===
/** Decimal digit strings: how a non-negative integer is written by
    JavaScript's number-to-string conversion (`n + ""`, or `${n}` in a
    template), and the value a digit string denotes. */
module Decimal {

  /** 10 to the power k. */
  function Pow10(k: nat): (r: nat)
    ensures r >= 1
  {
    if k == 0 then 1 else 10 * Pow10(k - 1)
  }

  predicate IsDigit(c: char) {
    '0' <= c <= '9'
  }

  predicate AllDigits(s: string) {
    forall i :: 0 <= i < |s| ==> IsDigit(s[i])
  }

  /** The value 0..9 of one digit character. */
  function DigitValue(c: char): (d: nat)
    requires IsDigit(c)
    ensures d < 10
  {
    (c as int) - ('0' as int)
  }

  /** The digit character for 0..9; DigitValue undoes it. */
  function DigitChar(d: nat): (c: char)
    requires d < 10
    ensures IsDigit(c) && DigitValue(c) == d
  {
    "0123456789"[d]
  }

  /** The shortest decimal representation of n, most significant digit first. */
  function NatToString(n: nat): (s: string)
    ensures |s| >= 1
    ensures AllDigits(s)
    ensures |s| > 1 ==> s[0] != '0'
  {
    if n < 10 then [DigitChar(n)] else NatToString(n / 10) + [DigitChar(n % 10)]
  }

  /** The value a digit string denotes; leading zeros are allowed and the
      empty string denotes 0. */
  function DigitsValue(s: string): nat
    requires AllDigits(s)
  {
    if |s| == 0 then 0 else DigitsValue(s[..|s| - 1]) * 10 + DigitValue(s[|s| - 1])
  }

  /** Reading back a written number gives the number. */
  lemma {:induction false} ValueOfNatToString(n: nat)
    ensures DigitsValue(NatToString(n)) == n
  {
    var s := NatToString(n);
    if n >= 10 {
      assert s[..|s| - 1] == NatToString(n / 10);
      ValueOfNatToString(n / 10);
    }
  }

  /** Writing a number is injective. */
  lemma NatToStringInjective(m: nat, n: nat)
    requires NatToString(m) == NatToString(n)
    ensures m == n
  {
    ValueOfNatToString(m);
    ValueOfNatToString(n);
  }

  /** A number written with k digits is below 10^k. */
  lemma {:induction false} NatToStringBound(n: nat)
    ensures n < Pow10(|NatToString(n)|)
  {
    if n >= 10 {
      NatToStringBound(n / 10);
    }
  }

  lemma {:induction false} Pow10Monotone(j: nat, k: nat)
    requires j <= k
    ensures Pow10(j) <= Pow10(k)
  {
    if j < k {
      Pow10Monotone(j, k - 1);
    }
  }

  /** A number of at least 10^(k-1) takes at least k digits. */
  lemma LongNumbersHaveManyDigits(n: nat, k: nat)
    requires k >= 1 && n >= Pow10(k - 1)
    ensures |NatToString(n)| >= k
  {
    NatToStringBound(n);
    if |NatToString(n)| < k {
      Pow10Monotone(|NatToString(n)|, k - 1);
    }
  }

  lemma MulAtLeastOnce(d: int, m: int)
    requires d >= 1 && m > 0
    ensures d * m >= m
  {
    assert d * m == (d - 1) * m + m;
  }

  /** Euclidean division has a unique remainder. */
  lemma ModOfDecomposition(x: int, m: int, q: int, r: int)
    requires m > 0 && 0 <= r < m && x == q * m + r
    ensures x % m == r
  {
    var q', r' := x / m, x % m;
    assert (q - q') * m == r' - r;
    if q' < q {
      MulAtLeastOnce(q - q', m);
    } else if q' > q {
      MulAtLeastOnce(q' - q, m);
    }
  }

  /** Shifting in one more low digit: (a * 10 + v) mod 10^(k+1) keeps the
      digit and a mod 10^k above it. */
  lemma ShiftedMod(a: nat, v: nat, k: nat)
    requires v < 10
    ensures (a * 10 + v) % Pow10(k + 1) == (a % Pow10(k)) * 10 + v
  {
    var m := Pow10(k);
    var q := a / m;
    var r := a % m;
    assert a == q * m + r;
    assert a * 10 + v == q * (m * 10) + (r * 10 + v);
    assert r * 10 + v < m * 10;
    ModOfDecomposition(a * 10 + v, m * 10, q, r * 10 + v);
  }

  /** The last k characters of a digit string denote its value mod 10^k. */
  lemma {:induction false} SuffixValue(s: string, k: nat)
    requires AllDigits(s) && k <= |s|
    ensures DigitsValue(s[|s| - k..]) == DigitsValue(s) % Pow10(k)
  {
    if k > 0 {
      var p := s[..|s| - 1];
      var t := s[|s| - k..];
      assert t[..|t| - 1] == p[|p| - (k - 1)..];
      assert t[|t| - 1] == s[|s| - 1];
      SuffixValue(p, k - 1);
      ShiftedMod(DigitsValue(p), DigitValue(s[|s| - 1]), k - 1);
    }
  }

  /** Digit strings of equal length are equal when they denote the same value. */
  lemma {:induction false} DigitsValueInjective(s: string, t: string)
    requires AllDigits(s) && AllDigits(t) && |s| == |t|
    requires DigitsValue(s) == DigitsValue(t)
    ensures s == t
  {
    if |s| > 0 {
      var n := |s| - 1;
      var a, b := DigitsValue(s[..n]), DigitsValue(t[..n]);
      var u, v := DigitValue(s[n]), DigitValue(t[n]);
      ModOfDecomposition(a * 10 + u, 10, a, u);
      ModOfDecomposition(b * 10 + v, 10, b, v);
      assert u == v;
      assert s[n] == t[n];
      DigitsValueInjective(s[..n], t[..n]);
      assert s == s[..n] + [s[n]];
      assert t == t[..n] + [t[n]];
    }
  }
}

=== FILE: seqs.dfy ===
/** Facts about sequences shared by the other modules. */
module Seqs {

  /** p is an initial segment of s. */
  predicate IsPrefix<T(==)>(p: seq<T>, s: seq<T>) {
    |p| <= |s| && s[..|p|] == p
  }
}

=== FILE: session.dfy ===
/** One browser tab over time: the `App` state together with the persisted
    `workouts` slot of localStorage, driven by map clicks, form submissions,
    page reloads and `reset()` (script.js lines 77-91, 155-231, 313-334). */
module Session {
  import opened Wrappers
  import opened Workouts
  import opened Controller
  import opened Seqs

  /** The live app and the persisted slot; JSON encoding is abstracted away,
      so the slot holds the list itself. */
  datatype Session = Session(app: App, storage: Option<seq<Workout>>)

  /** `new App()`: `_getPosition` only starts an asynchronous request, then
      `_getLocalStorage` restores the list from the slot. */
  function Boot(storage: Option<seq<Workout>>): (s: Session)
    ensures s.storage == storage
    ensures s.app.mapEvent.None?
    ensures storage.None? ==> s.app.workouts == []
    ensures storage.Some? ==> s.app.workouts == storage.value
  {
    Session(GetLocalStorage(Fresh, storage), storage)
  }

  datatype Event =
    | MapClick(at: LatLng)
    | Submit(form: FormInput, clock: Clock)
    | Reload
    | Reset

  /** One event. An accepted submission ends with `_setLocalStorage`, which
      writes the whole list to the slot; `reset()` removes the slot and
      reloads the page. */
  function Step(s: Session, e: Event): (r: Session)
    ensures e.MapClick? ==>
      r.app.mapEvent == Some(e.at) && r.app.workouts == s.app.workouts && r.storage == s.storage
    ensures e.Submit? && NewWorkout(s.app, e.form, e.clock).status != Accepted ==> r == s
    ensures e.Submit? && NewWorkout(s.app, e.form, e.clock).status == Accepted ==>
      r.app == NewWorkout(s.app, e.form, e.clock).app && r.storage == Some(r.app.workouts)
    ensures e.Reload? ==>
      r.storage == s.storage && r.app.mapEvent.None? && r.app.workouts == s.storage.GetOr([])
    ensures e.Reset? ==> r.storage.None? && r.app.workouts == [] && r.app.mapEvent.None?
  {
    match e
    case MapClick(at) => s.(app := ShowForm(s.app, at))
    case Submit(form, clock) =>
      var r := NewWorkout(s.app, form, clock);
      if r.status == Accepted then Session(r.app, Some(r.app.workouts)) else s.(app := r.app)
    case Reload => Boot(s.storage)
    case Reset => Boot(None)
  }

  function Run(s: Session, events: seq<Event>): Session
    decreases |events|
  {
    if |events| == 0 then s else Run(Step(s, events[0]), events[1..])
  }

  /** The slot holds exactly the live list, or nothing while the list is
      still empty. */
  predicate Mirrored(s: Session) {
    s.storage == Some(s.app.workouts) || (s.storage.None? && s.app.workouts == [])
  }

  lemma BootMirrored(storage: Option<seq<Workout>>)
    ensures Mirrored(Boot(storage))
  {
  }

  lemma StepPreservesMirrored(s: Session, e: Event)
    requires Mirrored(s)
    ensures Mirrored(Step(s, e))
  {
  }

  lemma {:induction false} RunPreservesMirrored(s: Session, events: seq<Event>)
    requires Mirrored(s)
    ensures Mirrored(Run(s, events))
    decreases |events|
  {
    if |events| > 0 {
      StepPreservesMirrored(s, events[0]);
      RunPreservesMirrored(Step(s, events[0]), events[1..]);
    }
  }

  /** Persistence round trip: whatever happened since the page was loaded,
      reloading it brings back the same list in the same order. */
  lemma ReloadRestoresWorkouts(storage: Option<seq<Workout>>, events: seq<Event>)
    ensures var s := Run(Boot(storage), events);
      Step(s, Reload).app.workouts == s.app.workouts
  {
    BootMirrored(storage);
    RunPreservesMirrored(Boot(storage), events);
  }

  /** Without a reset the list only grows at its end: every record already
      present keeps its place, and later records come after it. */
  lemma {:induction false} RunIsAppendOnly(s: Session, events: seq<Event>)
    requires Mirrored(s)
    requires forall i :: 0 <= i < |events| ==> !events[i].Reset?
    ensures IsPrefix(s.app.workouts, Run(s, events).app.workouts)
    decreases |events|
  {
    if |events| > 0 {
      var s' := Step(s, events[0]);
      StepPreservesMirrored(s, events[0]);
      assert IsPrefix(s.app.workouts, s'.app.workouts);
      RunIsAppendOnly(s', events[1..]);
      var final := Run(s', events[1..]).app.workouts;
      assert final[..|s.app.workouts|] == final[..|s'.app.workouts|][..|s.app.workouts|];
    }
  }

  /** After a reset the tab starts over with no records and nothing stored. */
  lemma ResetClearsEverything(s: Session)
    ensures Step(s, Reset) == Session(Fresh, None)
  {
  }
}

=== FILE: workouts.dfy ===
/** Workout records (script.js lines 11-61): the two variants Running and
    Cycling share coordinates, distance (km), duration (min), the creation
    date, an id and a description; each carries one measured field and one
    rate derived from distance and duration at construction. */
module Workouts {
  import opened Wrappers
  import opened Decimal
  import opened Seqs

  /** A map position, [lat, lng]. */
  datatype LatLng = LatLng(lat: real, lng: real)

  /** `Date.prototype.getMonth()` ranges over 0..11 and `getDate()` over 1..31. */
  type MonthIndex = m: nat | m < 12
  type DayOfMonth = d: nat | 1 <= d <= 31 witness 1

  /** The two parts of the creation date the record reads. */
  datatype CalendarDate = CalendarDate(month: MonthIndex, day: DayOfMonth)

  /** The clock as seen by one construction: `Date.now()` in milliseconds,
      from which the id is cut, and the calendar date of `new Date()`. */
  datatype Clock = Clock(millis: nat, date: CalendarDate)

  /** The value of the type selector, and the `type` field of a record. */
  datatype WorkoutType = RunningType | CyclingType

  datatype Workout =
    | Running(coords: LatLng, distance: real, duration: real, date: CalendarDate,
              id: string, description: string, cadence: real, pace: real)
    | Cycling(coords: LatLng, distance: real, duration: real, date: CalendarDate,
              id: string, description: string, elevationGain: real, speed: real)
  {
    function Type(): WorkoutType {
      if Running? then RunningType else CyclingType
    }
  }

  /** The month-name table of `_setDescription`. */
  const Months: seq<string> :=
    ["January", "February", "March", "April", "May", "June", "July",
     "August", "September", "October", "November", "December"]

  /** The `type` string each variant carries. */
  function TypeName(t: WorkoutType): string {
    match t
    case RunningType => "running"
    case CyclingType => "cycling"
  }

  /** `String.prototype.toUpperCase` on one character, for the ASCII letters
      it is ever applied to here. */
  function UpperCase(c: char): char {
    if 'a' <= c <= 'z' then (c as int - 32) as char else c
  }

  /** `s[0].toUpperCase() + s.slice(1)`. */
  function Capitalize(s: string): string
    requires |s| > 0
  {
    [UpperCase(s[0])] + s[1..]
  }

  /** The capitalised type name that opens a description. */
  function Title(t: WorkoutType): (r: string)
    ensures r == (if t == RunningType then "Running" else "Cycling")
  {
    Capitalize(TypeName(t))
  }

  /** The template literal of `_setDescription` breaks its line after "on":
      the newline and the eight spaces of indentation are part of the text. */
  const LineBreak: string := "\n        "

  /** What precedes the month name in a description. */
  function Header(t: WorkoutType): string {
    Title(t) + " on" + LineBreak
  }

  /** The description computed once at construction: the capitalised type,
      " on", the template's line break, the month name, a space and the day
      of month in decimal. */
  function Description(t: WorkoutType, date: CalendarDate): (r: string)
    ensures IsPrefix(Title(t) + " on\n", r)
    ensures |r| == 20 + |Months[date.month]| + |NatToString(date.day)|
  {
    Header(t) + Months[date.month] + " " + NatToString(date.day)
  }

  /** Where the month name, the space and the day sit in a description:
      after the 19 characters of the capitalised type, " on" and the line
      break with its indentation. */
  lemma DescriptionLayout(t: WorkoutType, date: CalendarDate)
    ensures var r := Description(t, date);
      var k := 19 + |Months[date.month]|;
      && r[..19] == Title(t) + " on\n        "
      && r[19..k] == Months[date.month]
      && r[k] == ' '
      && r[k + 1..] == NatToString(date.day)
  {
  }

  /** Running pace in min/km: `duration / distance`. */
  function Pace(distance: real, duration: real): (pace: real)
    requires distance != 0.0
    ensures pace * distance == duration
    ensures distance > 0.0 && duration > 0.0 ==> pace > 0.0
  {
    duration / distance
  }

  /** Cycling speed in km/h: `distance / (duration / 60)`, the duration
      being in minutes. */
  function Speed(distance: real, duration: real): (speed: real)
    requires duration != 0.0
    ensures speed * duration == 60.0 * distance
    ensures distance > 0.0 && duration > 0.0 ==> speed > 0.0
  {
    distance / (duration / 60.0)
  }

  /** `(Date.now() + "").slice(-10)`: the last ten decimal digits of the
      timestamp, or all of them when there are fewer. */
  function IdOf(millis: nat): (id: string)
    ensures |id| <= 10 && AllDigits(id)
  {
    var s := NatToString(millis);
    if |s| <= 10 then s else s[|s| - 10..]
  }

  /** The derived fields agree with the base fields they were computed from. */
  predicate WellFormed(w: Workout) {
    && w.description == Description(w.Type(), w.date)
    && match w
       case Running(_, distance, duration, _, _, _, _, pace) =>
         distance != 0.0 && pace * distance == duration
       case Cycling(_, distance, duration, _, _, _, _, speed) =>
         duration != 0.0 && speed * duration == 60.0 * distance
  }

  /** `new Running(coords, distance, duration, cadence)`. */
  function NewRunning(coords: LatLng, distance: real, duration: real, cadence: real, clock: Clock): (w: Workout)
    requires distance != 0.0
    ensures w.Type() == RunningType && WellFormed(w)
    ensures w.coords == coords && w.distance == distance && w.duration == duration && w.cadence == cadence
    ensures w.date == clock.date && w.id == IdOf(clock.millis)
  {
    Running(coords, distance, duration, clock.date, IdOf(clock.millis),
            Description(RunningType, clock.date), cadence, Pace(distance, duration))
  }

  /** `new Cycling(coords, distance, duration, elevationGain)`. */
  function NewCycling(coords: LatLng, distance: real, duration: real, elevationGain: real, clock: Clock): (w: Workout)
    requires duration != 0.0
    ensures w.Type() == CyclingType && WellFormed(w)
    ensures w.coords == coords && w.distance == distance && w.duration == duration && w.elevationGain == elevationGain
    ensures w.date == clock.date && w.id == IdOf(clock.millis)
  {
    Cycling(coords, distance, duration, clock.date, IdOf(clock.millis),
            Description(CyclingType, clock.date), elevationGain, Speed(distance, duration))
  }

  /** Speed is the km-per-minute rate scaled to an hour. */
  lemma SpeedIsKilometresPerHour(distance: real, duration: real)
    requires duration != 0.0
    ensures Speed(distance, duration) == 60.0 * distance / duration
    ensures Speed(distance, duration) == 60.0 * (distance / duration)
  {
  }

  /** Once the timestamp has ten digits (every date after 2001-09-09) the id
      has exactly ten characters. */
  lemma IdHasTenDigits(millis: nat)
    requires millis >= Pow10(9)
    ensures |IdOf(millis)| == 10
  {
    LongNumbersHaveManyDigits(millis, 10);
  }

  /** The id reads back as the timestamp modulo 10^10. */
  lemma IdIsTimestampModulo(millis: nat)
    ensures DigitsValue(IdOf(millis)) == millis % Pow10(10)
  {
    var s := NatToString(millis);
    ValueOfNatToString(millis);
    if |s| <= 10 {
      NatToStringBound(millis);
      Pow10Monotone(|s|, 10);
      ModOfDecomposition(millis, Pow10(10), 0, millis);
    } else {
      SuffixValue(s, 10);
    }
  }

  /** Two timestamps of ten or more digits that agree modulo 10^10 give the
      same id: records made 10^10 ms apart, or within the same millisecond,
      share an id. */
  lemma SameIdModulo(a: nat, b: nat)
    requires a >= Pow10(9) && b >= Pow10(9)
    requires a % Pow10(10) == b % Pow10(10)
    ensures IdOf(a) == IdOf(b)
  {
    IdHasTenDigits(a);
    IdHasTenDigits(b);
    IdIsTimestampModulo(a);
    IdIsTimestampModulo(b);
    DigitsValueInjective(IdOf(a), IdOf(b));
  }

  /** The month of every date lands inside the twelve-entry table. */
  lemma MonthTableCovers(date: CalendarDate)
    ensures date.month < |Months|
  {
  }

  /** The text produced for a run on 14 April, newline and indentation included. */
  lemma DescriptionExample()
    ensures Description(RunningType, CalendarDate(3, 14)) == "Running on\n        April 14"
  {
  }

  // ---------------------------------------------------------------------
  // Reading a description back: the description determines the type and
  // the date it was made from.

  datatype DescriptionParts = DescriptionParts(workoutType: WorkoutType, date: CalendarDate)

  /** The position of the first space in s, if any. */
  function FirstSpace(s: string): (r: Option<nat>)
    ensures r.Some? ==> r.value < |s| && s[r.value] == ' '
    ensures r.Some? ==> forall j :: 0 <= j < r.value ==> s[j] != ' '
    ensures r.None? ==> forall j :: 0 <= j < |s| ==> s[j] != ' '
  {
    if |s| == 0 then None
    else if s[0] == ' ' then Some(0)
    else match FirstSpace(s[1..])
      case None => None
      case Some(i) => Some(i + 1)
  }

  /** The first month index at or after `from` whose name is `name`. */
  function MonthFrom(name: string, from: nat): (r: Option<MonthIndex>)
    requires from <= 12
    ensures r.Some? ==> from <= r.value && Months[r.value] == name
    ensures r.Some? ==> forall m :: from <= m < r.value ==> Months[m] != name
    ensures r.None? ==> forall m :: from <= m < 12 ==> Months[m] != name
    decreases 12 - from
  {
    if from == 12 then None
    else if Months[from] == name then Some(from)
    else MonthFrom(name, from + 1)
  }

  function ParseDescription(s: string): (r: Option<DescriptionParts>) {
    var t :=
      if IsPrefix(Header(RunningType), s) then Some(RunningType)
      else if IsPrefix(Header(CyclingType), s) then Some(CyclingType)
      else None;
    if t.None? then None
    else
      var rest := s[|Header(t.value)|..];
      match FirstSpace(rest)
      case None => None
      case Some(i) =>
        var digits := rest[i + 1..];
        match MonthFrom(rest[..i], 0)
        case None => None
        case Some(m) =>
          if |digits| == 0 || !AllDigits(digits) then None
          else
            var d := DigitsValue(digits);
            if 1 <= d <= 31 then Some(DescriptionParts(t.value, CalendarDate(m, d))) else None
  }

  lemma MonthNamesHaveNoSpace(m: MonthIndex)
    ensures forall j :: 0 <= j < |Months[m]| ==> Months[m][j] != ' '
  {
  }

  /** No month name appears twice in the table. */
  lemma MonthNamesDistinct(m: MonthIndex, n: MonthIndex)
    requires m != n
    ensures Months[m] != Months[n]
  {
  }

  /** Looking a month name up in the table finds its own index. */
  lemma MonthFromFindsName(m: MonthIndex)
    ensures MonthFrom(Months[m], 0) == Some(m)
  {
  }

  /** Parsing a description recovers the type and date it was built from. */
  lemma ParseDescriptionInverts(t: WorkoutType, date: CalendarDate)
    ensures ParseDescription(Description(t, date)) == Some(DescriptionParts(t, date))
  {
    var s := Description(t, date);
    var name := Months[date.month];
    var digits := NatToString(date.day);
    assert |Header(t)| == 19;
    assert s[..19] == Header(t);
    assert s[0] == (if t == RunningType then 'R' else 'C');
    var rest := s[19..];
    assert rest == name + " " + digits;
    MonthNamesHaveNoSpace(date.month);
    assert rest[|name|] == ' ';
    assert FirstSpace(rest) == Some(|name|);
    assert rest[..|name|] == name;
    assert rest[|name| + 1..] == digits;
    MonthFromFindsName(date.month);
    ValueOfNatToString(date.day);
  }

  /** Two descriptions are equal only when type, month and day all agree. */
  lemma DescriptionInjective(t1: WorkoutType, d1: CalendarDate, t2: WorkoutType, d2: CalendarDate)
    requires Description(t1, d1) == Description(t2, d2)
    ensures t1 == t2 && d1 == d2
  {
    ParseDescriptionInverts(t1, d1);
    ParseDescriptionInverts(t2, d2);
  }
}

=== FILE: wrappers.dfy ===
/** The Some/None datatype used for values that may be absent: a form field
    that did not parse to a finite number, a pending map click that has not
    happened yet, a persisted slot that holds nothing, a lookup that missed. */
module Wrappers {

  datatype Option<+T> = None | Some(value: T) {

    /** Returns the value held in Some, or `default` when None. */
    function GetOr(default: T): T {
      match this
      case Some(v) => v
      case None => default
    }
  }
}
